=== FILE: README.md ===
# Portfolio site interactions, modelled in Dafny

This project models the interactive core of the portfolio website's script
`js/main.js`:

- the contact-form rules of `FormValidator`: the e-mail and phone formats,
  the field labels, the submit-time validation pass and the blur-time
  check of one input;
- the `MobileNavigation` menu: toggling it, closing it on a wide resize or
  an outside click, and the DOM state (classes, scroll lock, ARIA
  attributes) that follows the open flag;
- `FAQAccordion.toggleItem`: at most one FAQ answer is open;
- `PortfolioFilter.handleFilter`: which button is marked active and which
  portfolio items are shown.

DOM state is modelled as values. The form is a record of the five input
values. The menu is a record of its flag and the DOM it writes. The FAQ items
and the filter buttons are sequences of flags, and the portfolio items are
sequences of `data-category` attributes. Every handler becomes a function
from the state before an event to the state after it. The filter handler is a
method with loops.

Files:

- `text.dfy` (`Text`): the ECMAScript whitespace class shared by `\s` and
  `String.prototype.trim`, `trim` itself, and `IndexOf`, which finds the
  e-mail matcher's split points (the first '@' and a '.' inside the domain).
- `email.dfy` (`Email`): `isValidEmail`, written as a matcher for
  `^[^\s@]+@[^\s@]+\.[^\s@]+$`. It is proved equal to the language of that
  expression, stated as a reference definition.
- `phone.dfy` (`Phone`): `isValidPhone`. This is the separator removal
  followed by a matcher for `^[\+]?[1-9][\d]{0,15}$`, and the matcher is
  likewise proved equal to the language of that expression.
- `form.dfy` (`FormValidator`): `validateForm`, `handleSubmit`,
  `getFieldLabel`, `validateField` and the message texts.
- `nav.dfy` (`MobileNavigation`), `faq.dfy` (`FaqAccordion`), `filter.dfy`
  (`PortfolioFilter`), and `wrappers.dfy` (`Option`).

Error messages are modelled as a `Problem` (missing, bad e-mail, bad phone),
keyed by the input. `MessageText` renders a problem to the exact text the
script shows.

Comparing the submit pass with the blur pass brings out three places where
they disagree. Each is proved as a lemma:

- A whitespace-only e-mail is reported as "required" on blur. On submit, it
  is reported as badly formatted, because the format check overwrites the
  "required" entry.
- An e-mail padded with spaces passes on blur, which trims it. It fails on
  submit, which does not trim.
- A whitespace-only phone shows no message on blur. On submit it fails the
  format check.

## Model

| member | source | states |
|---|---|---|
| Text.TrimStart | js/main.js:152 | the result is a suffix of the input; everything cut off is whitespace; the result does not start with whitespace |
| Text.TrimEnd | js/main.js:152 | the result is a prefix of the input; everything cut off is whitespace; the result does not end with whitespace |
| Text.Trim | js/main.js:152 | `value.trim()` is empty exactly when the value is all whitespace; a non-empty result neither starts nor ends with whitespace |
| Text.TrimSplits | js/main.js:152 | the input is a whitespace prefix, then the trimmed value, then a whitespace suffix |
| Text.TrimNoWs | js/main.js:152 | trimming a value that contains no whitespace leaves it unchanged |
| Text.TrimIdempotent | js/main.js:152 | trimming twice is the same as trimming once |
| Text.IndexOf | js/main.js:121-124 | the first occurrence of a character, or the length when the character is absent: the split points of the e-mail matcher for `[^\s@]+@` and the inner '.' |
| Email.IsValidEmail | js/main.js:121-124 | `isValidEmail`: split at the first '@' and check the local part and the domain; `EmailMatchesPattern` proves this is exactly the regular expression's language |
| Email.EmailMatchesPattern | js/main.js:121-124 | the e-mail matcher accepts exactly the strings of the form user@host.tld, where each part is a non-empty run without whitespace or '@' |
| Email.ValidEmailSplits | js/main.js:121-124 | every accepted address splits into user, '@', host, '.', tld |
| Email.PatternIsValid | js/main.js:121-124 | every user@host.tld built from such runs is accepted |
| Email.ValidEmailHasOneAt | js/main.js:121-124 | an accepted address contains exactly one '@' |
| Email.ValidEmailHasNoWs | js/main.js:121-124 | an accepted address contains no whitespace, so `trim` does not change it |
| Email.EmailRuleByParts | js/main.js:121-124 | accepted iff: exactly one '@'; a non-empty local part without whitespace; a domain without whitespace with a '.' strictly inside it |
| Phone.StripSeparators | js/main.js:128 | `replace(/[\s\-\(\)]/g, '')` leaves no separator and never lengthens the value |
| Phone.StripCounts | js/main.js:128 | stripping keeps every other character as many times as it occurs |
| Phone.StripOne | js/main.js:128 | a single character is kept exactly when it is not a separator |
| Phone.IsValidPhone | js/main.js:126-129 | `isValidPhone`: strip the separators, then match; `PhoneMatchesPattern` proves the matcher is exactly the regular expression's language |
| Phone.PhoneMatchesPattern | js/main.js:126-129 | the phone matcher accepts exactly the strings: an optional '+', a digit 1-9, then at most fifteen digits |
| Phone.ValidPhoneLength | js/main.js:126-129 | an accepted number has 1 to 17 characters once stripped, and every character after the first is a digit |
| Phone.StripAppend | js/main.js:128 | stripping distributes over concatenation; with `StripOne`, the kept characters stay in their original order |
| Phone.StripAllWs | js/main.js:128 | stripping removes a whitespace-only string entirely |
| Phone.StripIdempotent | js/main.js:128 | stripping twice is the same as stripping once |
| Phone.TrimKeepsPhoneValidity | js/main.js:126-129 | trimming before the phone check changes neither the stripped digits nor the verdict |
| FormValidator.FieldLabel | js/main.js:131-140 | each of the five known names gets its capitalised label; any other name is returned unchanged |
| FormValidator.MessageText | js/main.js:102 | the "required" message of each of the five inputs is its capitalised name followed by " is required"; for any other name it is the name itself followed by " is required" |
| FormValidator.NoEntries | js/main.js:118 | the error map is empty exactly when no input has an entry |
| FormValidator.CheckRequired | js/main.js:97-104 | the `requiredFields.forEach` loop, as a fold over the listed inputs; `CheckRequiredEntry` states its effect on each input |
| FormValidator.CheckRequiredEntry | js/main.js:97-104 | the required-fields loop gives every listed blank input a "required" entry and leaves every other entry alone |
| FormValidator.ValidateForm | js/main.js:94-119 | per input: the name, subject and message are "required" when blank; the e-mail is a format error when non-empty and rejected (this overrides "required"), otherwise "required" when blank; the phone is a format error only when non-empty and rejected |
| FormValidator.FormIsValid | js/main.js:94-119 | the form passes iff: name, subject and message are not blank; the raw e-mail is accepted; the phone is empty or accepted |
| FormValidator.HandleSubmit | js/main.js:84-92 | the form is sent exactly when it is valid; otherwise the non-empty error map of `validateForm` is displayed |
| FormValidator.ValidateField | js/main.js:150-165 | blur check, in order of precedence: "required" iff the input is required and blank; the e-mail format error iff the trimmed, non-blank e-mail is rejected; the phone format error iff the non-blank phone is rejected |
| FormValidator.RequiredTextOnBlur | js/main.js:150-165 | on a required input other than e-mail and phone, the blur check reports exactly a blank value |
| FormValidator.PhoneOnBlur | js/main.js:150-165 | on the optional phone, unless the value is non-empty whitespace, the blur check reports exactly a non-empty rejected number |
| FormValidator.FieldAgreesWithForm | js/main.js:94-119 | the blur check and the submit check agree on name, subject, message, and on the phone unless it is non-empty whitespace |
| FormValidator.ValidFormHasNoFieldErrors | js/main.js:150-165 | a form that passes on submit shows no message on any blur |
| FormValidator.BlankPhoneDivergence | js/main.js:112-116 | a whitespace-only phone passes on blur but fails on submit |
| FormValidator.BlankEmailDivergence | js/main.js:107-110 | a whitespace-only e-mail is "required" on blur but a format error on submit |
| FormValidator.PaddedEmailDivergence | js/main.js:107-110 | an e-mail that is valid only after trimming passes on blur but fails on submit |
| FormValidator.EmptyFormErrors | js/main.js:94-119 | an empty form yields exactly the four "required" entries and is not sent |
| MobileNavigation.Initial | js/main.js:13-18 | the component starts closed with the classes and scroll lock consistent |
| MobileNavigation.ToggleMenu | js/main.js:28-39 | toggling flips the flag and both `active` classes; it sets `overflow` to "hidden" when opening and "" when closing; it writes the ARIA attributes from the new flag |
| MobileNavigation.CloseMenu | js/main.js:59-66 | closing leaves the menu closed, both classes off, scrolling unlocked, `aria-expanded` "false" and `aria-hidden` "true" |
| MobileNavigation.OnResize | js/main.js:41-47 | a width above 768 leaves the menu closed, and on an open menu the result is exactly `closeMenu`; any other width, or a closed menu, leaves the state unchanged |
| MobileNavigation.OnDocumentClick | js/main.js:49-57 | a click outside menu and toggle leaves the menu closed, and on an open menu the result is exactly `closeMenu`; any other click, or a closed menu, leaves the state unchanged |
| MobileNavigation.Step | js/main.js:20-26 | event dispatch with bubbling: a click on the toggle amounts to exactly one `toggleMenu`, since the document listener then sees a target inside the toggle; a click in the menu changes nothing; a click elsewhere closes an open menu; a resize is the resize listener |
| MobileNavigation.ToggleClickFlips | js/main.js:22 | a toggle click opens a closed menu and closes an open one |
| MobileNavigation.ToggleTwice | js/main.js:28-39 | toggling twice restores any state whose DOM follows its flag |
| MobileNavigation.CloseIdempotent | js/main.js:59-66 | closing twice equals closing once; closing an already closed, consistent menu changes nothing |
| MobileNavigation.StepKeepsMirror | js/main.js:28-66 | every handler keeps the classes, scroll lock and ARIA attributes in step with the flag |
| MobileNavigation.RunKeepsMirror | js/main.js:28-66 | so does any sequence of clicks and resizes |
| MobileNavigation.RunKeepsClasses | js/main.js:28-66 | classes and scroll lock stay in step over any sequence of events, whatever the markup's ARIA attributes |
| MobileNavigation.AriaAfterToggle | js/main.js:28-66 | after a toggle or a close, the ARIA attributes stay in step over any later events, whatever the markup's ARIA attributes were |
| FaqAccordion.ActiveCount | js/main.js:396-408 | the number of open items is at most the number of items |
| FaqAccordion.CloseAll | js/main.js:400-402 | the loop closes every item and keeps their number |
| FaqAccordion.ToggleItem | js/main.js:396-408 | clicking an open item closes every item; clicking a closed one leaves exactly that item open |
| FaqAccordion.AtMostOneIffCount | js/main.js:396-408 | "no two distinct items are open" is the same as "at most one item is open" |
| FaqAccordion.NoneActiveIffZero | js/main.js:396-408 | the count of open items is zero exactly when none is open |
| FaqAccordion.ToggleLeavesAtMostOne | js/main.js:396-408 | after any click, at most one item is open, whatever the state before |
| FaqAccordion.ToggleTwice | js/main.js:396-408 | a second click on the same question restores that item and leaves every other item closed |
| FaqAccordion.Clicks | js/main.js:391 | a sequence of clicks keeps the number of items |
| FaqAccordion.OpenItemIsLastClicked | js/main.js:391-408 | after one or more clicks, at most one item is open, and it is the one clicked last |
| PortfolioFilter.HandleFilter | js/main.js:256-275 | exactly the clicked button is active; an item is shown iff the clicked filter is "all" or equals the item's category; the views are `ViewsFor` of the clicked filter |
| PortfolioFilter.ViewsFor | js/main.js:264-274 | the item loop as a function: one view per item |
| PortfolioFilter.ViewsForShows | js/main.js:267 | item by item, the view is `Shown` exactly when `filter === 'all' \|\| category === filter` |
| PortfolioFilter.ShownCount | js/main.js:264-274 | the number of shown items is at most the number of items |
| PortfolioFilter.AllShowsEverything | js/main.js:267 | after a click on the "all" button every item is shown |
| PortfolioFilter.ShownAreOwnCategory | js/main.js:267 | after a click on any other button, the number of items shown equals the number of items whose category is its filter, an absent category matching an absent filter |
| PortfolioFilter.DistinctFiltersDisjoint | js/main.js:267 | two buttons whose filters differ, neither of them "all", never both show the same item |

## Left out

- `submitForm` and `simulateSubmission`: the submission is a fixed two-second timer that always succeeds, followed by the success message and a form reset. It is asynchronous DOM work, so it is not modelled, and neither is the loading-state styling of the submit button. `HandleSubmit` stops at the choice between sending and showing errors.
- `setFieldError`, `clearFieldError` and `displayErrors`: these write messages into the DOM and depend on whether an element with id `<name>-error` exists, where `<name>` is the input's `name`. The model produces the message, not its display.
- `addRealTimeValidation`: its `blur` listener runs `validateField`, which is modelled as `ValidateField`. Its `input` listener, which clears an input's error, only writes to the DOM and is left out.
- FormValidator.FieldLabel: the lookup in an object literal also finds inherited `Object.prototype` names, such as "constructor". Those names are not modelled; the model returns them unchanged.
- FormValidator.ValidateField: the `name` attribute and the `required` attribute are parameters, because the model has no form markup. This includes the case where a `required` attribute sits on an input other than the four required ones.
- FormValidator.ValidateForm: the inputs are assumed present. The script would throw on a missing input, and that case is not modelled.
- Strings are sequences of Unicode scalar values, not of UTF-16 code units. `\d` and `\s` behave the same either way, because every whitespace character and every digit is a single code unit.
- MobileNavigation.Initial: the markup is assumed to have neither element carrying `active` and no inline `overflow` on the body. The ARIA attributes the markup carries are a parameter.
- MobileNavigation: the `init` guard for a missing toggle or menu is left out, because the handlers are then never attached. Whether a click lands in the menu or in the toggle (`contains`) is given as the event's target.
- PortfolioFilter.HandleFilter: `e.target` is taken to be the clicked button itself. A click on a child element would put `active` and `getAttribute` on that child instead. A shown item is `display: block` with `animate-fade-in`, and a hidden one is `display: none` without it; both are modelled as `ItemView`.
- FaqAccordion.ToggleItem: the click listener is attached only to items that have a `.faq-question`, so the model's item index is taken to be that of such an item.
- The rest of the script is outside this model: scroll animations and lazy loading, tooltips, `debounce` and `throttle`, smooth scrolling, the header scroll effect, the accessibility and preload helpers, the error handlers and the `DOMContentLoaded` wiring.

=== FILE: email.dfy ===
/**
  The e-mail format rule of the contact form: the regular expression
  `^[^\s@]+@[^\s@]+\.[^\s@]+$`, written out as a hand-made matcher over
  characters, together with the language of the expression as a reference
  definition and the lemmas tying the two together.
 */
module Email {
  import opened Text

  /** A character that `[^\s@]` matches. */
  predicate IsAddrChar(c: char) {
    !IsWs(c) && c != '@'
  }

  /** Every character of `s` matches `[^\s@]`. */
  predicate AllAddrChars(s: string) {
    forall k :: 0 <= k < |s| ==> IsAddrChar(s[k])
  }

  /** `d` has a '.' that is neither its first nor its last character. */
  predicate HasInnerDot(d: string) {
    |d| >= 3 && IndexOf(d[1..|d| - 1], '.') < |d| - 2
  }

  /** `FormValidator.isValidEmail`: split at the first '@', then check the
      local part and the domain. */
  predicate IsValidEmail(s: string) {
    var at := IndexOf(s, '@');
    && 0 < at < |s|
    && AllAddrChars(s[..at])
    && AllAddrChars(s[at + 1..])
    && HasInnerDot(s[at + 1..])
  }

  /** The language of `^[^\s@]+@[^\s@]+\.[^\s@]+$`: three non-empty runs of
      `[^\s@]`, joined by '@' and '.'. */
  ghost predicate MatchesEmailPattern(s: string) {
    exists user: string, host: string, tld: string
      {:trigger AllAddrChars(user), AllAddrChars(host), AllAddrChars(tld)} ::
      && |user| > 0 && |host| > 0 && |tld| > 0
      && AllAddrChars(user) && AllAddrChars(host) && AllAddrChars(tld)
      && s == user + "@" + host + "." + tld
  }

  /** The matcher accepts exactly the language of the regular expression. */
  lemma EmailMatchesPattern(s: string)
    ensures IsValidEmail(s) <==> MatchesEmailPattern(s)
  {
    if IsValidEmail(s) {
      ValidEmailSplits(s);
    }
    if MatchesEmailPattern(s) {
      var user: string, host: string, tld: string :|
        && |user| > 0 && |host| > 0 && |tld| > 0
        && AllAddrChars(user) && AllAddrChars(host) && AllAddrChars(tld)
        && s == user + "@" + host + "." + tld;
      PatternIsValid(s, user, host, tld);
    }
  }

  lemma ValidEmailSplits(s: string)
    requires IsValidEmail(s)
    ensures MatchesEmailPattern(s)
  {
    var at := IndexOf(s, '@');
    var d := s[at + 1..];
    var k := 1 + IndexOf(d[1..|d| - 1], '.');
    assert d[k] == '.';
    var user, host, tld := s[..at], d[..k], d[k + 1..];
    SliceAddrChars(d, 0, k);
    SliceAddrChars(d, k + 1, |d|);
    assert d == host + "." + tld;
    assert s == user + "@" + d;
    assert s == user + "@" + host + "." + tld;
    PatternWitness(s, user, host, tld);
  }

  /** Three runs joined by '@' and '.' are in the language. */
  lemma PatternWitness(s: string, user: string, host: string, tld: string)
    requires |user| > 0 && |host| > 0 && |tld| > 0
    requires AllAddrChars(user) && AllAddrChars(host) && AllAddrChars(tld)
    requires s == user + "@" + host + "." + tld
    ensures MatchesEmailPattern(s)
  {
  }

  /** Every slice of a run of `[^\s@]` is one. */
  lemma SliceAddrChars(d: string, i: nat, j: nat)
    requires AllAddrChars(d) && i <= j <= |d|
    ensures AllAddrChars(d[i..j])
  {
    forall n | 0 <= n < j - i ensures IsAddrChar(d[i..j][n]) {
      assert d[i..j][n] == d[i + n];
    }
  }

  lemma PatternIsValid(s: string, user: string, host: string, tld: string)
    requires |user| > 0 && |host| > 0 && |tld| > 0
    requires AllAddrChars(user) && AllAddrChars(host) && AllAddrChars(tld)
    requires s == user + "@" + host + "." + tld
    ensures IsValidEmail(s)
  {
    var at := IndexOf(s, '@');
    assert s[|user|] == '@';
    assert forall j :: 0 <= j < |user| ==> s[j] == user[j];
    assert at == |user|;
    assert s[..at] == user;
    var d := s[at + 1..];
    assert d == host + "." + tld;
    assert AllAddrChars(d) by {
      forall j | 0 <= j < |d| ensures IsAddrChar(d[j]) {
        if j < |host| {
          assert d[j] == host[j];
        } else if j > |host| {
          assert d[j] == tld[j - |host| - 1];
        }
      }
    }
    var inner := d[1..|d| - 1];
    assert inner[|host| - 1] == '.';
  }

  /** An accepted address has exactly one '@'. */
  lemma ValidEmailHasOneAt(s: string)
    requires IsValidEmail(s)
    ensures multiset(s)['@'] == 1
  {
    var at := IndexOf(s, '@');
    var user, d := s[..at], s[at + 1..];
    assert s == user + ['@'] + d;
    assert '@' !in user;
    assert '@' !in d;
  }

  /** An accepted address contains no whitespace, so trimming it is a
      no-op. */
  lemma ValidEmailHasNoWs(s: string)
    requires IsValidEmail(s)
    ensures NoWs(s)
    ensures Trim(s) == s
  {
    var at := IndexOf(s, '@');
    forall k | 0 <= k < |s| ensures !IsWs(s[k]) {
      if k < at {
        assert s[k] == s[..at][k];
      } else if k > at {
        assert s[k] == s[at + 1..][k - at - 1];
      }
    }
    TrimNoWs(s);
  }

  /** The rule stated part by part: exactly one '@', a non-empty local part
      without whitespace, and a domain without whitespace that has a '.'
      strictly inside it. */
  lemma EmailRuleByParts(s: string)
    ensures IsValidEmail(s) <==>
      && multiset(s)['@'] == 1
      && var at := IndexOf(s, '@');
         && 0 < at
         && NoWs(s[..at])
         && NoWs(s[at + 1..])
         && HasInnerDot(s[at + 1..])
  {
    var at := IndexOf(s, '@');
    if IsValidEmail(s) {
      ValidEmailHasOneAt(s);
      assert NoWs(s[..at]) by {
        forall k | 0 <= k < at ensures !IsWs(s[..at][k]) {
          assert IsAddrChar(s[..at][k]);
        }
      }
      var d := s[at + 1..];
      assert NoWs(d) by {
        forall k | 0 <= k < |d| ensures !IsWs(d[k]) {
          assert IsAddrChar(d[k]);
        }
      }
    }
    if multiset(s)['@'] == 1 && 0 < at && NoWs(s[..at]) && NoWs(s[at + 1..])
       && HasInnerDot(s[at + 1..]) {
      assert '@' in s;
      assert at < |s|;
      var user, d := s[..at], s[at + 1..];
      assert s == user + ['@'] + d;
      assert multiset(d)['@'] == 0;
      assert '@' !in d;
    }
  }
}

=== FILE: faq.dfy ===
/**
  `FAQAccordion`: the `active` class of each FAQ item, as a sequence of
  flags in document order, and the click handler that opens one item and
  closes the others.
 */
module FaqAccordion {

  /** Number of items carrying `active`. */
  function ActiveCount(items: seq<bool>): (n: nat)
    ensures n <= |items|
  {
    if items == [] then 0
    else (if items[0] then 1 else 0) + ActiveCount(items[1..])
  }

  /** No two distinct items are active. */
  predicate AtMostOneActive(items: seq<bool>) {
    forall j, k :: 0 <= j < |items| && 0 <= k < |items| && items[j] && items[k] ==> j == k
  }

  /** The `forEach` that removes `active` from every item. */
  function CloseAll(items: seq<bool>): (r: seq<bool>)
    ensures |r| == |items|
    ensures forall k :: 0 <= k < |r| ==> !r[k]
  {
    if items == [] then [] else [false] + CloseAll(items[1..])
  }

  /** `toggleItem`: note whether item `i` was active, close every item, and
      reopen item `i` only if it had been closed. */
  function ToggleItem(items: seq<bool>, i: nat): (r: seq<bool>)
    requires i < |items|
    ensures |r| == |items|
    ensures items[i] ==> forall k :: 0 <= k < |r| ==> !r[k]
    ensures !items[i] ==> forall k :: 0 <= k < |r| ==> (r[k] <==> k == i)
  {
    var wasActive := items[i];
    var closed := CloseAll(items);
    if wasActive then closed else closed[i := true]
  }

  /** The index-wise statement and the count agree. */
  lemma {:induction false} AtMostOneIffCount(items: seq<bool>)
    ensures AtMostOneActive(items) <==> ActiveCount(items) <= 1
  {
    if items != [] {
      var tail := items[1..];
      AtMostOneIffCount(tail);
      NoneActiveIffZero(tail);
      assert forall k :: 0 <= k < |tail| ==> tail[k] == items[k + 1];
      if AtMostOneActive(items) {
        assert AtMostOneActive(tail);
      }
    }
  }

  /** A count of zero means no item is active. */
  lemma {:induction false} NoneActiveIffZero(items: seq<bool>)
    ensures ActiveCount(items) == 0 <==> forall k :: 0 <= k < |items| ==> !items[k]
  {
    if items != [] {
      NoneActiveIffZero(items[1..]);
      if ActiveCount(items) != 0 && !items[0] {
        var k :| 0 <= k < |items[1..]| && items[1..][k];
        assert items[k + 1];
      }
    }
  }

  /** After any click at most one item is open, whatever the state before. */
  lemma ToggleLeavesAtMostOne(items: seq<bool>, i: nat)
    requires i < |items|
    ensures ActiveCount(ToggleItem(items, i)) <= 1
  {
    AtMostOneIffCount(ToggleItem(items, i));
  }

  /** A second click on the same question puts that item back as it was
      and leaves every other item closed. */
  lemma ToggleTwice(items: seq<bool>, i: nat)
    requires i < |items|
    ensures |ToggleItem(ToggleItem(items, i), i)| == |items|
    ensures forall k :: 0 <= k < |items| ==> (ToggleItem(ToggleItem(items, i), i)[k] <==> k == i && items[i])
  {
  }

  /** Clicks on questions, by item index, applied in order. */
  function Clicks(items: seq<bool>, clicks: seq<nat>): (r: seq<bool>)
    requires forall n :: 0 <= n < |clicks| ==> clicks[n] < |items|
    ensures |r| == |items|
    decreases |clicks|
  {
    if clicks == [] then items
    else Clicks(ToggleItem(items, clicks[0]), clicks[1..])
  }

  /** After at least one click, the only item that can be open is the one
      clicked last, and at most one item is open. */
  lemma {:induction false} OpenItemIsLastClicked(items: seq<bool>, clicks: seq<nat>)
    requires forall n :: 0 <= n < |clicks| ==> clicks[n] < |items|
    requires clicks != []
    ensures forall k :: 0 <= k < |items| && Clicks(items, clicks)[k] ==> k == clicks[|clicks| - 1]
    ensures ActiveCount(Clicks(items, clicks)) <= 1
    decreases |clicks|
  {
    var next := ToggleItem(items, clicks[0]);
    ToggleLeavesAtMostOne(items, clicks[0]);
    if |clicks| > 1 {
      OpenItemIsLastClicked(next, clicks[1..]);
    }
  }
}

=== FILE: filter.dfy ===
/**
  `PortfolioFilter`: the filter buttons and the portfolio items, each
  reduced to its data attribute, and the click handler that marks the
  clicked button and shows the items of its category.
 */
module PortfolioFilter {
  import opened Wrappers

  /** An attribute value; `None` is what `getAttribute` returns when the
      attribute is absent (`null`). */
  type Attr = Option<string>

  /** The two visual states `handleFilter` gives an item: `display: block`
      with `animate-fade-in`, or `display: none` without it. */
  datatype ItemView = Shown | Hidden

  /** A button with `data-filter` equal to `filter` shows an item with
      `data-category` equal to `category`. */
  predicate Shows(filter: Attr, category: Attr) {
    filter == Some("all") || category == filter
  }

  /** The view each item gets from the button whose filter is `filter`. */
  function ViewsFor(filter: Attr, categories: seq<Attr>): (views: seq<ItemView>)
    ensures |views| == |categories|
  {
    if categories == [] then []
    else [if Shows(filter, categories[0]) then Shown else Hidden] + ViewsFor(filter, categories[1..])
  }

  /** Item by item, `ViewsFor` shows exactly the items its filter selects. */
  lemma {:induction false} ViewsForShows(filter: Attr, categories: seq<Attr>)
    ensures forall k :: 0 <= k < |categories| ==>
      (ViewsFor(filter, categories)[k] == Shown <==> Shows(filter, categories[k]))
  {
    if categories != [] {
      ViewsForShows(filter, categories[1..]);
      var views := ViewsFor(filter, categories);
      assert forall k :: 1 <= k < |categories| ==> views[k] == ViewsFor(filter, categories[1..])[k - 1];
    }
  }

  /** `handleFilter` for a click on button `clicked`: the first loop clears
      `active` from every button and then the clicked one gets it; the
      second loop decides each item's view. */
  method HandleFilter(filters: seq<Attr>, categories: seq<Attr>, clicked: nat)
    returns (active: seq<bool>, views: seq<ItemView>)
    requires clicked < |filters|
    ensures |active| == |filters|
    ensures forall j :: 0 <= j < |active| ==> (active[j] <==> j == clicked)
    ensures |views| == |categories|
    ensures forall k :: 0 <= k < |views| ==>
      (views[k] == Shown <==> filters[clicked] == Some("all") || categories[k] == filters[clicked])
    ensures views == ViewsFor(filters[clicked], categories)
  {
    var filter := filters[clicked];
    active := [];
    var j := 0;
    while j < |filters|
      invariant j <= |filters| && |active| == j
      invariant forall m :: 0 <= m < j ==> !active[m]
    {
      active := active + [false];
      j := j + 1;
    }
    active := active[clicked := true];
    views := [];
    var k := 0;
    while k < |categories|
      invariant k <= |categories| && |views| == k
      invariant forall m :: 0 <= m < k ==> (views[m] == Shown <==> Shows(filter, categories[m]))
    {
      var view := if Shows(filter, categories[k]) then Shown else Hidden;
      views := views + [view];
      k := k + 1;
    }
    ViewsForShows(filter, categories);
    SameViews(views, ViewsFor(filter, categories));
  }

  /** Two view sequences that show the same items are equal: an item's view
      is one of two. */
  lemma SameViews(a: seq<ItemView>, b: seq<ItemView>)
    requires |a| == |b|
    requires forall k :: 0 <= k < |a| ==> (a[k] == Shown <==> b[k] == Shown)
    ensures a == b
  {
  }

  /** Number of items shown. */
  function ShownCount(views: seq<ItemView>): (n: nat)
    ensures n <= |views|
  {
    if views == [] then 0
    else (if views[0] == Shown then 1 else 0) + ShownCount(views[1..])
  }

  /** The "all" button shows every item. */
  lemma {:induction false} AllShowsEverything(categories: seq<Attr>)
    ensures ShownCount(ViewsFor(Some("all"), categories)) == |categories|
  {
    if categories != [] {
      AllShowsEverything(categories[1..]);
    }
  }

  /** Any other button shows as many items as carry its filter as their
      `data-category`, an absent one included (`null === null`). */
  lemma {:induction false} ShownAreOwnCategory(filter: Attr, categories: seq<Attr>)
    requires filter != Some("all")
    ensures ShownCount(ViewsFor(filter, categories)) == multiset(categories)[filter]
  {
    if categories != [] {
      ShownAreOwnCategory(filter, categories[1..]);
      assert categories == [categories[0]] + categories[1..];
    }
  }

  /** Two different buttons other than "all" never show the same item. */
  lemma DistinctFiltersDisjoint(f: Attr, g: Attr, categories: seq<Attr>, k: nat)
    requires f != Some("all") && g != Some("all") && f != g
    requires k < |categories|
    ensures ViewsFor(f, categories)[k] == Hidden || ViewsFor(g, categories)[k] == Hidden
  {
    ViewsForShows(f, categories);
    ViewsForShows(g, categories);
  }
}

=== FILE: form.dfy ===
/**
  `FormValidator`: the contact form's validation rules with the DOM reads
  replaced by a record of field values. `ValidateForm` is the pass run on
  submit and yields the error map; `ValidateField` is the pass run when one
  input loses focus and yields at most one message for it.
 */
module FormValidator {
  import opened Wrappers
  import opened Text
  import opened Email
  import opened Phone

  /** The five named inputs of the contact form. */
  datatype Field = NameField | EmailField | PhoneField | SubjectField | MessageField

  /** The raw `value` of each input. */
  datatype ContactForm = ContactForm(
    name: string, email: string, phone: string, subject: string, message: string)

  /** The `name` attribute of each input, used as the key of the error map. */
  function Key(f: Field): string {
    match f
    case NameField => "name"
    case EmailField => "email"
    case PhoneField => "phone"
    case SubjectField => "subject"
    case MessageField => "message"
  }

  function Value(form: ContactForm, f: Field): string {
    match f
    case NameField => form.name
    case EmailField => form.email
    case PhoneField => form.phone
    case SubjectField => form.subject
    case MessageField => form.message
  }

  const FormKeys: set<string> := {"name", "email", "phone", "subject", "message"}

  /** The fields checked for presence on submit, in the order checked. */
  const RequiredFields: seq<Field> := [NameField, EmailField, SubjectField, MessageField]

  /** What is wrong with an input. The source builds the message text at
      once; `MessageText` renders a problem to that exact text. */
  datatype Problem = Missing | BadEmailFormat | BadPhoneFormat

  /** ASCII upper-casing of one character. */
  function UpperAscii(c: char): char {
    if 'a' <= c <= 'z' then (c as int - 32) as char else c
  }

  /** `s` with its first character upper-cased. */
  function Capitalize(s: string): string {
    if s == [] then [] else [UpperAscii(s[0])] + s[1..]
  }

  /** `getFieldLabel`: the label table for the five inputs, falling back to
      the name itself. Each label is its key, capitalised. */
  function FieldLabel(name: string): (text: string)
    ensures name in FormKeys ==> text == Capitalize(name)
    ensures name !in FormKeys ==> text == name
  {
    var labels := map[
      "name" := "Name", "email" := "Email", "phone" := "Phone",
      "subject" := "Subject", "message" := "Message"];
    if name in labels then labels[name] else name
  }

  /** The text the source shows for `problem` on the input named `name`. */
  function MessageText(name: string, problem: Problem): (text: string)
    ensures problem == Missing && name in FormKeys ==> text == Capitalize(name) + " is required"
    ensures problem == Missing && name !in FormKeys ==> text == name + " is required"
  {
    match problem
    case Missing => FieldLabel(name) + " is required"
    case BadEmailFormat => "Please enter a valid email address"
    case BadPhoneFormat => "Please enter a valid phone number"
  }

  /** The error map, keyed by input; the source keys it by the input's
      `name` (`Key`) and stores `MessageText` of the problem. */
  type Errors = map<Field, Problem>

  /** The error-map entry for `f`, if any. */
  function Lookup(errors: Errors, f: Field): Option<Problem> {
    if f in errors then Some(errors[f]) else None
  }

  /** Two error maps with the same entry for every input are equal. */
  lemma LookupExtensional(a: Errors, b: Errors)
    requires forall f :: Lookup(a, f) == Lookup(b, f)
    ensures a == b
  {
    forall f ensures (f in a <==> f in b) && (f in a ==> a[f] == b[f]) {
      assert Lookup(a, f) == Lookup(b, f);
    }
  }

  /** An error map is empty exactly when none of the five inputs has an
      entry. */
  lemma NoEntries(errors: Errors)
    ensures |errors| == 0 <==>
      && Lookup(errors, NameField) == None && Lookup(errors, EmailField) == None
      && Lookup(errors, PhoneField) == None && Lookup(errors, SubjectField) == None
      && Lookup(errors, MessageField) == None
  {
    if && Lookup(errors, NameField) == None && Lookup(errors, EmailField) == None
       && Lookup(errors, PhoneField) == None && Lookup(errors, SubjectField) == None
       && Lookup(errors, MessageField) == None {
      forall f ensures Lookup(errors, f) == Lookup(map[], f) {
        match f
        case NameField =>
        case EmailField =>
        case PhoneField =>
        case SubjectField =>
        case MessageField =>
      }
      LookupExtensional(errors, map[]);
    }
  }

  /** The `requiredFields.forEach` loop of `validateForm`: each blank field
      gets its "is required" entry, later entries overwriting earlier ones.
      A value is blank (`!value.trim()`) when it is empty once trimmed,
      which by the contract of `Trim` is the case exactly when `AllWs`
      holds of it. */
  function CheckRequired(form: ContactForm, fields: seq<Field>, errors: Errors): Errors {
    if fields == [] then errors
    else
      var f := fields[0];
      var errors' := if AllWs(Value(form, f)) then errors[f := Missing] else errors;
      CheckRequired(form, fields[1..], errors')
  }

  /** The loop gives each listed blank field a `Missing` entry and leaves
      every other entry as it was. */
  lemma {:induction false} CheckRequiredEntry(
    form: ContactForm, fields: seq<Field>, errors: Errors, f: Field)
    ensures Lookup(CheckRequired(form, fields, errors), f) ==
      (if f in fields && AllWs(Value(form, f)) then Some(Missing) else Lookup(errors, f))
    decreases |fields|
  {
    if fields != [] {
      var g := fields[0];
      var errors' := if AllWs(Value(form, g)) then errors[g := Missing] else errors;
      CheckRequiredEntry(form, fields[1..], errors', f);
    }
  }

  /** The raw e-mail is non-empty and fails the format rule. */
  predicate BadEmail(email: string) {
    email != [] && !IsValidEmail(email)
  }

  /** `validateForm`'s error map. */
  function ValidateForm(form: ContactForm): (errors: Errors)
    ensures Lookup(errors, NameField) == (if AllWs(form.name) then Some(Missing) else None)
    ensures Lookup(errors, SubjectField) == (if AllWs(form.subject) then Some(Missing) else None)
    ensures Lookup(errors, MessageField) == (if AllWs(form.message) then Some(Missing) else None)
    ensures Lookup(errors, EmailField) ==
      (if BadEmail(form.email) then Some(BadEmailFormat)
       else if AllWs(form.email) then Some(Missing)
       else None)
    ensures Lookup(errors, PhoneField) ==
      (if form.phone != [] && !IsValidPhone(form.phone) then Some(BadPhoneFormat) else None)
  {
    var required := CheckRequired(form, RequiredFields, map[]);
    CheckRequiredEntry(form, RequiredFields, map[], NameField);
    CheckRequiredEntry(form, RequiredFields, map[], EmailField);
    CheckRequiredEntry(form, RequiredFields, map[], PhoneField);
    CheckRequiredEntry(form, RequiredFields, map[], SubjectField);
    CheckRequiredEntry(form, RequiredFields, map[], MessageField);
    var withEmail := if BadEmail(form.email) then required[EmailField := BadEmailFormat]
                     else required;
    if form.phone != [] && !IsValidPhone(form.phone) then withEmail[PhoneField := BadPhoneFormat]
    else withEmail
  }

  /** `validateForm`'s boolean: no entry in the error map. */
  function FormIsValid(form: ContactForm): (ok: bool)
    ensures ok <==>
      && !AllWs(form.name) && !AllWs(form.subject) && !AllWs(form.message)
      && IsValidEmail(form.email)
      && (form.phone == [] || IsValidPhone(form.phone))
  {
    var errors := ValidateForm(form);
    NoEntries(errors);
    |errors| == 0
  }

  /** What `handleSubmit` does next. */
  datatype SubmitOutcome = Send | ShowErrors(errors: Errors)

  /** `handleSubmit`: send a valid form, otherwise display the error map. */
  function HandleSubmit(form: ContactForm): (r: SubmitOutcome)
    ensures r.Send? <==> FormIsValid(form)
    ensures r.ShowErrors? ==> r.errors != map[] && r.errors == ValidateForm(form)
  {
    if FormIsValid(form) then Send else ShowErrors(ValidateForm(form))
  }

  /** `validateField`: the problem shown for one input when it loses focus,
      at most one, in the source's order of precedence. `required` is
      whether the input carries the `required` attribute. */
  function ValidateField(name: string, raw: string, required: bool): (r: Option<Problem>)
    ensures r == Some(Missing) <==> required && AllWs(raw)
    ensures r == Some(BadEmailFormat) <==>
      name == "email" && !AllWs(raw) && !IsValidEmail(Trim(raw))
    ensures r == Some(BadPhoneFormat) <==>
      name == "phone" && !AllWs(raw) && !IsValidPhone(raw)
  {
    var value := Trim(raw);
    TrimKeepsPhoneValidity(raw);
    if required && value == [] then Some(Missing)
    else if name == "email" && value != [] && !IsValidEmail(value) then Some(BadEmailFormat)
    else if name == "phone" && value != [] && !IsValidPhone(value) then Some(BadPhoneFormat)
    else None
  }

  /** On a required input other than the e-mail and the phone, the blur
      check reports exactly a blank value. */
  lemma RequiredTextOnBlur(name: string, raw: string)
    requires name != "email" && name != "phone"
    ensures ValidateField(name, raw, true) == (if AllWs(raw) then Some(Missing) else None)
  {
  }

  /** On the optional phone input, the blur check agrees with the submit
      check unless the value is non-empty whitespace. */
  lemma PhoneOnBlur(raw: string)
    requires raw == [] || !AllWs(raw)
    ensures ValidateField("phone", raw, false) ==
      (if raw != [] && !IsValidPhone(raw) then Some(BadPhoneFormat) else None)
  {
  }

  /** With `required` set on exactly the four required inputs, the blur
      check and the submit check agree on every input except the e-mail,
      and on the phone unless it is non-empty whitespace. */
  lemma FieldAgreesWithForm(form: ContactForm, f: Field)
    requires f != EmailField
    requires f == PhoneField ==> form.phone == [] || !AllWs(form.phone)
    ensures ValidateField(Key(f), Value(form, f), f in RequiredFields)
            == Lookup(ValidateForm(form), f)
  {
    match f
    case NameField => RequiredTextOnBlur("name", form.name);
    case SubjectField => RequiredTextOnBlur("subject", form.subject);
    case MessageField => RequiredTextOnBlur("message", form.message);
    case PhoneField => PhoneOnBlur(form.phone);
  }

  /** A whitespace-only phone: the blur check trims it to nothing and shows
      no message, while on submit the untrimmed value fails the format. */
  lemma BlankPhoneDivergence(form: ContactForm)
    requires form.phone != [] && AllWs(form.phone)
    ensures ValidateField("phone", form.phone, false) == None
    ensures Lookup(ValidateForm(form), PhoneField) == Some(BadPhoneFormat)
  {
    StripAllWs(form.phone);
  }

  /** A form that passes the submit check shows no message on any blur. */
  lemma ValidFormHasNoFieldErrors(form: ContactForm, f: Field)
    requires FormIsValid(form)
    ensures ValidateField(Key(f), Value(form, f), f in RequiredFields) == None
  {
    if f == EmailField {
      ValidEmailHasNoWs(form.email);
    } else if f == PhoneField && form.phone != [] && AllWs(form.phone) {
      StripAllWs(form.phone);
    } else {
      FieldAgreesWithForm(form, f);
    }
  }

  /** A whitespace-only e-mail: the blur check reports it missing, while on
      submit the format problem overwrites the "required" entry. */
  lemma BlankEmailDivergence(form: ContactForm)
    requires form.email != [] && AllWs(form.email)
    ensures ValidateField("email", form.email, true) == Some(Missing)
    ensures Lookup(ValidateForm(form), EmailField) == Some(BadEmailFormat)
  {
  }

  /** An address padded with whitespace passes the blur check, which trims,
      but fails on submit, which does not. */
  lemma PaddedEmailDivergence(form: ContactForm)
    requires IsValidEmail(Trim(form.email)) && Trim(form.email) != form.email
    ensures ValidateField("email", form.email, true) == None
    ensures Lookup(ValidateForm(form), EmailField) == Some(BadEmailFormat)
  {
    if IsValidEmail(form.email) {
      ValidEmailHasNoWs(form.email);
    }
  }

  /** Submitting an empty form yields the four "required" entries, and no
      phone entry, and does not send. */
  lemma EmptyFormErrors()
    ensures ValidateForm(ContactForm("", "", "", "", "")) == map[
      NameField := Missing, EmailField := Missing,
      SubjectField := Missing, MessageField := Missing]
    ensures HandleSubmit(ContactForm("", "", "", "", "")).ShowErrors?
  {
    var errors := ValidateForm(ContactForm("", "", "", "", ""));
    var expected := map[
      NameField := Missing, EmailField := Missing,
      SubjectField := Missing, MessageField := Missing];
    forall f ensures Lookup(errors, f) == Lookup(expected, f) {
      match f
      case NameField =>
      case EmailField =>
      case PhoneField =>
      case SubjectField =>
      case MessageField =>
    }
    LookupExtensional(errors, expected);
  }
}

=== FILE: nav.dfy ===
/**
  `MobileNavigation`: the open/closed state of the mobile menu and the DOM
  state that mirrors it, as a value. Each handler is a function from the
  state before the event to the state after it.
 */
module MobileNavigation {

  /** The component's flag and every piece of DOM it writes: the `active`
      class of the menu and of the toggle button, the body's inline
      `overflow` style, and the two ARIA attributes. */
  datatype Nav = Nav(
    isOpen: bool,
    menuActive: bool,
    toggleActive: bool,
    bodyOverflow: string,
    ariaExpanded: string,
    ariaHidden: string)

  /** The text `setAttribute` stores for a boolean. */
  function BoolText(b: bool): string {
    if b then "true" else "false"
  }

  /** The body's `overflow` style for a menu that is open or not. */
  function OverflowFor(open: bool): string {
    if open then "hidden" else ""
  }

  /** The classes and the scroll lock follow the flag. */
  predicate ClassesMirror(s: Nav) {
    s.menuActive == s.isOpen && s.toggleActive == s.isOpen
    && s.bodyOverflow == OverflowFor(s.isOpen)
  }

  /** The ARIA attributes follow the flag. */
  predicate AriaMirrors(s: Nav) {
    s.ariaExpanded == BoolText(s.isOpen) && s.ariaHidden == BoolText(!s.isOpen)
  }

  /** The state right after construction: closed, with the markup's ARIA
      attributes and neither element carrying `active`. */
  function Initial(ariaExpanded: string, ariaHidden: string): (s: Nav)
    ensures !s.isOpen && ClassesMirror(s)
  {
    Nav(false, false, false, "", ariaExpanded, ariaHidden)
  }

  /** `toggleMenu`: flip the flag, toggle both `active` classes, lock or
      unlock scrolling, and write the ARIA attributes from the new flag. */
  function ToggleMenu(s: Nav): (r: Nav)
    ensures r.isOpen == !s.isOpen
    ensures r.menuActive == !s.menuActive && r.toggleActive == !s.toggleActive
    ensures r.bodyOverflow == (if s.isOpen then "" else "hidden")
    ensures AriaMirrors(r)
    ensures ClassesMirror(s) ==> ClassesMirror(r)
  {
    var open := !s.isOpen;
    Nav(open, !s.menuActive, !s.toggleActive, OverflowFor(open), BoolText(open), BoolText(!open))
  }

  /** `closeMenu`: clear the flag and every piece of DOM that shows the
      menu as open. */
  function CloseMenu(s: Nav): (r: Nav)
    ensures !r.isOpen && !r.menuActive && !r.toggleActive
    ensures ClassesMirror(r) && AriaMirrors(r)
  {
    Nav(false, false, false, "", "false", "true")
  }

  /** The `resize` listener: a window wider than 768 pixels closes an open
      menu; anything else leaves the state alone. */
  function OnResize(s: Nav, innerWidth: int): (r: Nav)
    ensures innerWidth > 768 ==> !r.isOpen
    ensures innerWidth > 768 && s.isOpen ==> r == CloseMenu(s)
    ensures innerWidth <= 768 || !s.isOpen ==> r == s
  {
    if innerWidth > 768 && s.isOpen then CloseMenu(s) else s
  }

  /** The document `click` listener: a click outside both the menu and the
      toggle closes an open menu. */
  function OnDocumentClick(s: Nav, inMenu: bool, inToggle: bool): (r: Nav)
    ensures !inMenu && !inToggle ==> !r.isOpen
    ensures s.isOpen && !inMenu && !inToggle ==> r == CloseMenu(s)
    ensures inMenu || inToggle || !s.isOpen ==> r == s
  {
    if s.isOpen && !inMenu && !inToggle then CloseMenu(s) else s
  }

  /** Where a click lands. */
  datatype Target = OnToggle | InMenu | Elsewhere

  datatype Event = Click(target: Target) | Resize(innerWidth: int)

  /** One event with every listener it reaches, in dispatch order: a click
      on the toggle runs `toggleMenu` and then bubbles to the document,
      whose listener sees a target inside the toggle and does nothing. */
  function Step(s: Nav, e: Event): (r: Nav)
    ensures e == Click(OnToggle) ==> r == ToggleMenu(s)
    ensures e == Click(InMenu) ==> r == s
    ensures e == Click(Elsewhere) ==> r == (if s.isOpen then CloseMenu(s) else s)
    ensures e.Resize? ==> r == (if e.innerWidth > 768 && s.isOpen then CloseMenu(s) else s)
  {
    match e
    case Click(OnToggle) => OnDocumentClick(ToggleMenu(s), false, true)
    case Click(InMenu) => OnDocumentClick(s, true, false)
    case Click(Elsewhere) => OnDocumentClick(s, false, false)
    case Resize(w) => OnResize(s, w)
  }

  function Run(s: Nav, events: seq<Event>): Nav
    decreases |events|
  {
    if events == [] then s else Run(Step(s, events[0]), events[1..])
  }

  /** Toggling twice restores a state whose DOM mirrors its flag. */
  lemma ToggleTwice(s: Nav)
    requires ClassesMirror(s) && AriaMirrors(s)
    ensures ToggleMenu(ToggleMenu(s)) == s
  {
  }

  /** Closing is idempotent, and closing a closed, mirrored menu changes
      nothing. */
  lemma CloseIdempotent(s: Nav)
    ensures CloseMenu(CloseMenu(s)) == CloseMenu(s)
    ensures !s.isOpen && ClassesMirror(s) && AriaMirrors(s) ==> CloseMenu(s) == s
  {
  }

  /** Every handler keeps the DOM mirroring the flag. */
  lemma StepKeepsMirror(s: Nav, e: Event)
    requires ClassesMirror(s) && AriaMirrors(s)
    ensures ClassesMirror(Step(s, e)) && AriaMirrors(Step(s, e))
  {
  }

  /** From a mirrored state, any sequence of events keeps the classes, the
      scroll lock and the ARIA attributes in step with the flag. */
  lemma {:induction false} RunKeepsMirror(s: Nav, events: seq<Event>)
    requires ClassesMirror(s) && AriaMirrors(s)
    ensures ClassesMirror(Run(s, events)) && AriaMirrors(Run(s, events))
    decreases |events|
  {
    if events != [] {
      StepKeepsMirror(s, events[0]);
      RunKeepsMirror(Step(s, events[0]), events[1..]);
    }
  }

  /** The classes and the scroll lock alone are kept in step by every
      sequence of events, whatever the markup's ARIA attributes were: in
      particular from `Initial`. */
  lemma {:induction false} RunKeepsClasses(s: Nav, events: seq<Event>)
    requires ClassesMirror(s)
    ensures ClassesMirror(Run(s, events))
    decreases |events|
  {
    if events != [] {
      RunKeepsClasses(Step(s, events[0]), events[1..]);
    }
  }

  /** Once a toggle or a close has happened, the ARIA attributes follow the
      flag too, whatever the markup's ARIA attributes were. */
  lemma AriaAfterToggle(s: Nav, events: seq<Event>)
    requires ClassesMirror(s)
    ensures ClassesMirror(Run(ToggleMenu(s), events)) && AriaMirrors(Run(ToggleMenu(s), events))
    ensures ClassesMirror(Run(CloseMenu(s), events)) && AriaMirrors(Run(CloseMenu(s), events))
  {
    RunKeepsMirror(ToggleMenu(s), events);
    RunKeepsMirror(CloseMenu(s), events);
  }

  /** The menu is open after a toggle click exactly when it was closed
      before it. */
  lemma ToggleClickFlips(s: Nav)
    ensures Step(s, Click(OnToggle)).isOpen == !s.isOpen
  {
  }
}

=== FILE: phone.dfy ===
/**
  The phone format rule of the contact form: remove every character of the
  class `[\s\-\(\)]`, then match `^[\+]?[1-9][\d]{0,15}$`. The removal is a
  filter over the string; the expression is a hand-made matcher with the
  language of the expression alongside as a reference definition.
 */
module Phone {
  import opened Text

  /** A character that `[\s\-\(\)]` matches and `replace` removes. */
  predicate IsSeparator(c: char) {
    IsWs(c) || c == '-' || c == '(' || c == ')'
  }

  /** `\d` without the `u` flag: an ASCII digit. */
  predicate IsDigit(c: char) {
    '0' <= c <= '9'
  }

  predicate AllDigits(s: string) {
    forall k :: 0 <= k < |s| ==> IsDigit(s[k])
  }

  /** `phone.replace(/[\s\-\(\)]/g, '')`: keep the non-separators, in order. */
  function StripSeparators(p: string): (r: string)
    ensures |r| <= |p|
    ensures forall k :: 0 <= k < |r| ==> !IsSeparator(r[k])
  {
    if p == [] then []
    else
      var rest := StripSeparators(p[1..]);
      if IsSeparator(p[0]) then rest else [p[0]] + rest
  }

  /** Stripping keeps every other character as many times as it occurs. */
  lemma {:induction false} StripCounts(p: string)
    ensures forall c :: !IsSeparator(c) ==> multiset(StripSeparators(p))[c] == multiset(p)[c]
  {
    if p != [] {
      StripCounts(p[1..]);
      assert p == [p[0]] + p[1..];
    }
  }

  /** The hand-made matcher for `^[\+]?[1-9][\d]{0,15}$`. */
  predicate IsPhoneShape(s: string) {
    var body := if |s| > 0 && s[0] == '+' then s[1..] else s;
    && 1 <= |body| <= 16
    && '1' <= body[0] <= '9'
    && AllDigits(body[1..])
  }

  /** `FormValidator.isValidPhone`. */
  predicate IsValidPhone(p: string) {
    IsPhoneShape(StripSeparators(p))
  }

  /** The language of `^[\+]?[1-9][\d]{0,15}$`: an optional '+', one digit
      from 1 to 9, then at most fifteen digits. */
  ghost predicate MatchesPhonePattern(s: string) {
    exists sign: string, rest: string {:trigger sign + rest} ::
      && (sign == "" || sign == "+")
      && |rest| >= 1 && '1' <= rest[0] <= '9'
      && |rest| <= 16 && AllDigits(rest[1..])
      && s == sign + rest
  }

  /** The matcher accepts exactly the language of the regular expression. */
  lemma PhoneMatchesPattern(s: string)
    ensures IsPhoneShape(s) <==> MatchesPhonePattern(s)
  {
    if IsPhoneShape(s) {
      if |s| > 0 && s[0] == '+' {
        assert s == "+" + s[1..];
      } else {
        assert s == "" + s;
      }
    }
    if MatchesPhonePattern(s) {
      var sign: string, rest: string :|
        && (sign == "" || sign == "+")
        && |rest| >= 1 && '1' <= rest[0] <= '9'
        && |rest| <= 16 && AllDigits(rest[1..])
        && s == sign + rest;
      if sign == "+" {
        assert s[1..] == rest;
      } else {
        assert s == rest;
      }
    }
  }

  /** An accepted number has between 1 and 17 characters once stripped. */
  lemma ValidPhoneLength(p: string)
    requires IsValidPhone(p)
    ensures 1 <= |StripSeparators(p)| <= 17
    ensures forall k :: 1 <= k < |StripSeparators(p)| ==> IsDigit(StripSeparators(p)[k])
  {
    var s := StripSeparators(p);
    if |s| > 0 && s[0] == '+' {
      forall k | 1 <= k < |s| ensures IsDigit(s[k]) {
        if k > 1 { assert s[k] == s[1..][1..][k - 2]; }
      }
    } else {
      forall k | 1 <= k < |s| ensures IsDigit(s[k]) {
        assert s[k] == s[1..][k - 1];
      }
    }
  }

  /** Stripping distributes over concatenation: it is a filter, so the kept
      characters stay in their original order. */
  lemma {:induction false} StripAppend(a: string, b: string)
    ensures StripSeparators(a + b) == StripSeparators(a) + StripSeparators(b)
  {
    if a == [] {
      assert a + b == b;
    } else {
      assert (a + b)[1..] == a[1..] + b;
      StripAppend(a[1..], b);
    }
  }

  /** On one character, stripping keeps it exactly when it is not a
      separator. With `StripAppend` this fixes the result: the kept
      characters, in their original order. */
  lemma StripOne(c: char)
    ensures StripSeparators([c]) == if IsSeparator(c) then [] else [c]
  {
  }

  /** Stripping removes whitespace entirely. */
  lemma {:induction false} StripAllWs(w: string)
    requires AllWs(w)
    ensures StripSeparators(w) == []
  {
    if w != [] {
      StripAllWs(w[1..]);
    }
  }

  /** Stripping is idempotent. */
  lemma {:induction false} StripIdempotent(p: string)
    ensures StripSeparators(StripSeparators(p)) == StripSeparators(p)
  {
    if p != [] {
      StripIdempotent(p[1..]);
      var rest := StripSeparators(p[1..]);
      if !IsSeparator(p[0]) {
        assert ([p[0]] + rest)[1..] == rest;
      }
    }
  }

  /** Trimming before the check changes nothing: the trimmed-off characters
      are whitespace, which stripping removes anyway. */
  lemma TrimKeepsPhoneValidity(p: string)
    ensures StripSeparators(Trim(p)) == StripSeparators(p)
    ensures IsValidPhone(Trim(p)) <==> IsValidPhone(p)
  {
    var r := Trim(p);
    var i := TrimSplits(p);
    var pre, post := p[..i], p[i + |r|..];
    assert p == pre + r + post;
    StripAppend(pre + r, post);
    StripAppend(pre, r);
    StripAllWs(pre);
    StripAllWs(post);
  }
}

=== FILE: text.dfy ===
/**
  Character classes and string helpers shared by the contact-form rules:
  the ECMAScript whitespace class (the set matched by `\s` in a regular
  expression and removed by `String.prototype.trim`), trimming, and
  searching for a character.
 */
module Text {

  /** ECMAScript WhiteSpace and LineTerminator code points. `\s` and `trim()`
      use exactly this set. */
  predicate IsWs(c: char) {
    var n := c as int;
    || n == 0x09 || n == 0x0A || n == 0x0B || n == 0x0C || n == 0x0D
    || n == 0x20 || n == 0xA0 || n == 0x1680
    || (0x2000 <= n <= 0x200A)
    || n == 0x2028 || n == 0x2029 || n == 0x202F || n == 0x205F
    || n == 0x3000 || n == 0xFEFF
  }

  /** Every character of `s` is whitespace (vacuously true of ""). */
  predicate AllWs(s: string) {
    forall k :: 0 <= k < |s| ==> IsWs(s[k])
  }

  /** No character of `s` is whitespace. */
  predicate NoWs(s: string) {
    forall k :: 0 <= k < |s| ==> !IsWs(s[k])
  }

  /** `String.prototype.trimStart`: drop leading whitespace. */
  function TrimStart(s: string): (r: string)
    ensures |r| <= |s| && r == s[|s| - |r|..]
    ensures AllWs(s[..|s| - |r|])
    ensures r == [] || !IsWs(r[0])
  {
    if s != [] && IsWs(s[0]) then
      var r := TrimStart(s[1..]);
      assert s[1..][..|s[1..]| - |r|] == s[1..|s| - |r|];
      r
    else s
  }

  /** `String.prototype.trimEnd`: drop trailing whitespace. */
  function TrimEnd(s: string): (r: string)
    ensures |r| <= |s| && r == s[..|r|]
    ensures AllWs(s[|r|..])
    ensures r == [] || !IsWs(r[|r| - 1])
  {
    if s != [] && IsWs(s[|s| - 1]) then
      var r := TrimEnd(s[..|s| - 1]);
      assert s[|r|..] == s[..|s| - 1][|r|..] + [s[|s| - 1]];
      r
    else s
  }

  /** `String.prototype.trim`: drop leading and trailing whitespace. */
  function Trim(s: string): (r: string)
    ensures |r| <= |s|
    ensures r == [] <==> AllWs(s)
    ensures r != [] ==> !IsWs(r[0]) && !IsWs(r[|r| - 1])
  {
    var t := TrimStart(s);
    var r := TrimEnd(t);
    if r == [] then
      assert t == t[|r|..];
      assert t == [];
      assert s[..|s|] == s;
      r
    else
      assert !AllWs(s) by {
        assert s[|s| - |t|] == t[0] == r[0];
      }
      r
  }

  /** `Trim(s)` is `s` with a whitespace prefix and a whitespace suffix
      removed; `i` is where it starts. */
  lemma TrimSplits(s: string) returns (i: nat)
    ensures i + |Trim(s)| <= |s|
    ensures s == s[..i] + Trim(s) + s[i + |Trim(s)|..]
    ensures AllWs(s[..i]) && AllWs(s[i + |Trim(s)|..])
  {
    var t := TrimStart(s);
    var r := TrimEnd(t);
    assert r == Trim(s);
    i := |s| - |t|;
    InfixSplit(s, t, r);
    assert AllWs(s[..i]);
    assert AllWs(s[i + |r|..]) by {
      assert s[i + |r|..] == t[|r|..];
    }
  }

  /** A prefix `r` of a suffix `t` of `s` cuts `s` into three pieces. */
  lemma InfixSplit(s: string, t: string, r: string)
    requires |t| <= |s| && t == s[|s| - |t|..]
    requires |r| <= |t| && r == t[..|r|]
    ensures s == s[..|s| - |t|] + r + s[|s| - |t| + |r|..]
    ensures s[|s| - |t| + |r|..] == t[|r|..]
  {
  }

  /** Index of the first `c` in `s`, or `|s|` when there is none. The
      e-mail matcher uses it to find its split points: the first '@' and a
      '.' strictly inside the domain. */
  function IndexOf(s: string, c: char): (i: nat)
    ensures i <= |s|
    ensures forall k :: 0 <= k < i ==> s[k] != c
    ensures i < |s| ==> s[i] == c
  {
    if |s| == 0 then 0
    else if s[0] == c then 0
    else 1 + IndexOf(s[1..], c)
  }

  /** Trimming a string without whitespace leaves it unchanged. */
  lemma TrimNoWs(s: string)
    requires NoWs(s)
    ensures Trim(s) == s
  {
  }

  /** Trimming is idempotent. */
  lemma TrimIdempotent(s: string)
    ensures Trim(Trim(s)) == Trim(s)
  {
  }
}

=== FILE: wrappers.dfy ===
/** The optional value used for absent DOM attributes and cleared error
    messages. */
module Wrappers {

  datatype Option<+T> = None | Some(value: T)
}
